=== FILE: README.md ===
# LoopLab leverage-loop calculator: a Dafny model

LoopLab is a web tool that models a leveraged "loop" on a lending market. The user supplies collateral, borrows
against it and re-supplies until a target loan-to-value (LTV) is reached. The tool then reports the
yield (net ROE), the health factor, the liquidation price, the distance to liquidation, five stress
scenarios and the break-even borrow rate. Around that engine sit:

- a static catalogue of four markets with their rate and risk snapshots;
- a store of saved strategies and points models, kept in the browser's `localStorage`;
- a comparison grid that awards badges;
- a risk panel that raises threshold alerts;
- a points/airdrop estimator.

This project models all of them in Dafny, one module per source file:

| module | file | source | form |
|---|---|---|---|
| `Types`, `Wrappers` | types.dfy, wrappers.dfy | lib/types.ts | datatypes (`Option` for `?:` fields) |
| `Simulate` | simulate.dfy | lib/simulate.ts | pure functions over `real` and lemmas |
| `Providers` | providers.dfy | lib/providers.ts | constant tables, a filter and keyed lookups |
| `CatalogueFacts` | catalogue_facts.dfy | lib/simulate.ts with lib/providers.ts | lemmas about the engine run on the catalogue |
| `Upsert` | upsert.dfy | the `[x, ...xs.filter(i => i.id !== x.id)]` expression of lib/store.ts and lib/storage.ts | generic functions and lemmas |
| `Storage` | storage.dfy | lib/storage.ts | class `BrowserStorage` over one storage slot |
| `Store` | store.dfy | lib/store.ts | class `LoopLabStore` with `seq` fields |
| `CompareGrid` | compare_grid.dfy | components/strategy-compare-grid.tsx | pure functions and lemmas |
| `RiskPanel` | risk_panel.dfy | components/risk-panel.tsx | one pure function |
| `PointsForm` | points_form.dfy | components/points-form.tsx | pure functions and a class `Form` for the effect and the save |

Every rate and amount is an exact `real`, so identities such as `distanceToLiq + liquidationPrice == 1` hold exactly.
The code divides by `1 - ltvUsed`, by the debt and by the liquidation threshold without any guard.
The engine therefore requires `0 < ltvUsed < 1`, `liquidationThreshold > 0` and `initialCapital > 0` (the predicate `Simulate.Simulable`).
No clamp or "maximal health factor" is invented.

Two consequences of the code as written:

- For eth-aave-usdc at risk target 25, the formula of lib/simulate.ts:21-25 gives exactly `netROE = 143/7000 ≈ 0.0204`. `CatalogueFacts.EthAaveUsdcExample` proves that value.
- lib/simulate.ts:27-29 has no special case at `ltvUsed = 0`: the debt is then zero and the health factor divides by it. The model excludes `ltvUsed = 0` by precondition.

## Model

| member | source | states |
|---|---|---|
| `Simulate.RecommendedLtv` | lib/simulate.ts:3-13 | the recommended LTV lies between 0.55 and 0.72 |
| `Simulate.RecommendedLtvMonotone` | lib/simulate.ts:3-7 | a higher risk target never gets a lower recommended LTV |
| `Simulate.LtvUsed` | lib/simulate.ts:16 | the manual LTV when one is given; otherwise the table's value, which lies between 0.55 and 0.72 |
| `Simulate.Fees` | lib/simulate.ts:19 | the fees are the 0.003 base plus the slippage read as a percentage, and exactly the base without slippage |
| `Simulate.NetRoe` | lib/simulate.ts:21-25 | the ROE is the supply rate on one's own capital, plus the supply-minus-borrow spread on the borrowed `leverage - 1` part, plus incentives, minus fees |
| `Simulate.Multiplier` | lib/simulate.ts:17 | the leverage is positive and is the inverse of the equity share `1 - ltv` |
| `Simulate.LeverageAtLeastOne` | lib/simulate.ts:17 | for `0 <= ltv < 1` the leverage is at least 1, and it equals 1 exactly when `ltv == 0` |
| `Simulate.LeverageIncreasing` | lib/simulate.ts:17 | the leverage is strictly increasing in the LTV |
| `Simulate.LeverageDiverges` | lib/simulate.ts:17 | the leverage exceeds any bound once the LTV is close enough to 1 |
| `Simulate.SimulateStrategy` | lib/simulate.ts:15-54 | the leverage is `Multiplier(ltvUsed)` and above 1; the fees are `Fees(input)`; netROE is `NetRoe` of the snapshot rates, those fees and that leverage; `healthFactor == liquidationThreshold / ltvUsed`; `liquidationPrice == ltvUsed / liquidationThreshold`; `distanceToLiq + liquidationPrice == 1`; the supply and borrow APYs pass through; `incentivesNet` is the sum of both incentive rates |
| `Simulate.HealthTimesLiquidationPrice` | lib/simulate.ts:29-30 | `healthFactor * liquidationPrice == 1` |
| `Simulate.CapitalIndependent` | lib/simulate.ts:27-31 | the whole result is the same for every positive initial capital |
| `Simulate.EchoedOverridesInert` | lib/simulate.ts:43-52 | the min-HF buffer, borrow spike, depeg haircut, liquidation-bonus override and loop-stop threshold change only the audit trail |
| `Simulate.AssumptionsAuditTrail` | lib/simulate.ts:43-52 | the audit trail has exactly the eight labels and echoes the LTV and leverage used; each of slippage, min-HF buffer, depeg haircut and borrow spike is the given value, or 0, 1.6, 0 and 0 when absent; fees are `0.003 + slippage/100`; the liquidation bonus is the snapshot's |
| `Simulate.ApplyShock` | lib/simulate.ts:69-77 | the label is the shock's; a pure price shock keeps the ROE and a pure borrow shock keeps the health factor; a price drop strictly lowers a positive health factor and a borrow shock strictly lowers the ROE |
| `Simulate.StressTests` | lib/simulate.ts:56-78 | exactly five results in the fixed label order; price entries scale the base health factor and keep the base ROE; borrow entries keep the base health factor and subtract the shock from the base ROE |
| `Simulate.StressSeverityOrder` | lib/simulate.ts:61-77 | each scenario is strictly worse than the base on its own axis, and more severe shocks are strictly worse |
| `Simulate.BreakEvenBorrowRate` | lib/simulate.ts:80-87 | borrowing at the returned rate, with all else fixed, makes the net ROE exactly 0 |
| `Simulate.NetRoeViaBreakEven` | lib/simulate.ts:21-25 | `netROE == (leverage - 1) * (breakEven - borrowAPY)` |
| `Simulate.BreakEvenRoundTrip` | lib/simulate.ts:80-87 | borrowing at `breakEvenBorrowRate` gives `netROE == 0` |
| `Simulate.BreakEvenSign` | lib/simulate.ts:80-87 | ROE > 0 exactly when the borrow APY is below break-even, and ROE == 0 exactly at break-even |
| `Providers.CataloguedIds` | lib/providers.ts:3-8 | the catalogued ids are exactly the four listed ones |
| `Providers.FilterMarkets` | lib/providers.ts:80-82 | the result holds exactly the entries on the given network and provider |
| `Providers.FilterMarketsAppend` | lib/providers.ts:80-82 | filtering distributes over concatenation, so table order is kept |
| `Providers.ListMarkets` | lib/providers.ts:80-82 | the result holds exactly the catalogued markets on that network from that provider, and at most one |
| `Providers.ListMarketsSelectsOne` | lib/providers.ts:3-8 | a (network, provider) pair selects at most one market, and each market is the one its pair selects |
| `Providers.NoEthereumMorpho` | lib/providers.ts:3-8 | `listMarkets(Ethereum, Morpho)` is empty |
| `Providers.GetMarketSnapshot` | lib/providers.ts:84-86 | a snapshot exists exactly for the catalogued ids; it is that id's table entry, with every rate, carries the requested `marketId`, and has `0 <= ltv < liquidationThreshold <= 1` with a threshold of at least 0.74; any other id gives `None` (but see `GetMarketSnapshot` under "Left out") |
| `Providers.ListAssets` | lib/providers.ts:88-90 | three symbols for a catalogued id, `[]` otherwise (but see `ListAssets` under "Left out") |
| `Providers.CatalogueComplete` | lib/providers.ts:10-78 | the snapshot and asset tables are keyed by exactly the market ids |
| `Providers.SnapshotsWellFormed` | lib/providers.ts:10-71 | every snapshot has `0 <= ltv < liquidationThreshold <= 1`, a threshold of at least 0.74 and its own id |
| `CatalogueFacts.CatalogueAlwaysSafe` | lib/simulate.ts:27-31 | on the snapshot `getMarketSnapshot` returns for any catalogued id, at every recommended LTV, `healthFactor > 1` and `distanceToLiq > 0` |
| `CatalogueFacts.EthAaveUsdcExample` | lib/providers.ts:11-19 | eth-aave-usdc at target 25: leverage 20/7, fees 0.003, netROE 143/7000, HF 16/13, liquidation price 13/16, distance 3/16, break-even 0.083 |
| `Upsert.RemoveKey` | lib/store.ts:22 | the result holds exactly the old entries whose id differs, and is no longer than the input |
| `Upsert.UpsertFront` | lib/store.ts:22 | the saved item is the head; no other entry has its id; the other members are the old entries with a different id |
| `Upsert.RemoveKeyAppend` | lib/store.ts:22 | the filter distributes over concatenation, so survivors keep their relative order |
| `Upsert.RemoveKeyAbsent` | lib/store.ts:22 | filtering out an id nobody has changes nothing |
| `Upsert.RemoveKeyIdempotent` | lib/store.ts:22 | filtering twice equals filtering once |
| `Upsert.RemoveKeyLength` | lib/store.ts:22 | with unique ids, the filter keeps them unique and drops exactly one entry when the id is present |
| `Upsert.UpsertKeepsUnique` | lib/store.ts:22 | unique ids stay unique after a save |
| `Upsert.UpsertLength` | lib/store.ts:22 | with unique ids, the list grows by one exactly when the id was new |
| `Upsert.UpsertIdempotent` | lib/store.ts:22 | saving the same item twice equals saving it once |
| `Upsert.UpsertKeepsOthers` | lib/storage.ts:33 | without the saved id, the new list is the old list without that id, in the same order |
| `Storage.DecodeFailuresAreEmpty` | lib/storage.ts:5-22 | no window, nothing stored, or unparsable text each load as two empty lists |
| `Storage.DecodeDefaultsMissingLists` | lib/storage.ts:15-18 | a missing list loads as `[]`; a present one loads as stored |
| `Storage.DecodeEncode` | lib/storage.ts:24-27 | a saved snapshot loads back unchanged |
| `Storage.BrowserStorage.LoadSnapshot` | lib/storage.ts:5-22 | returns the decoded slot, and empty lists without a window |
| `Storage.BrowserStorage.SaveSnapshot` | lib/storage.ts:24-27 | overwrites the slot, and a later load returns the saved snapshot; without a window nothing changes |
| `Storage.BrowserStorage.SaveStrategy` | lib/storage.ts:29-36 | stores `[s] ++ (old strategies without s.id)` and leaves the stored points unchanged |
| `Storage.BrowserStorage.SavePoints` | lib/storage.ts:38-45 | stores `[m] ++ (old points without m.id)` and leaves the stored strategies unchanged |
| `Storage.BrowserStorage.ExportSnapshot` | lib/storage.ts:47-49 | exports both lists of what a load returns |
| `Storage.BrowserStorage.ImportSnapshot` | lib/storage.ts:51-61 | unparsable input leaves the slot unchanged; parsed input is stored with its missing lists defaulted |
| `Store.LoopLabStore.constructor` | lib/store.ts:14-15 | the store starts with no strategies and no points |
| `Store.LoopLabStore.Hydrate` | lib/store.ts:16-19 | both lists become what storage holds |
| `Store.LoopLabStore.SaveStrategy` | lib/store.ts:20-26 | strategies become the upsert; points are unchanged; the persisted snapshot equals the new pair of lists; unique ids stay unique |
| `Store.LoopLabStore.SavePoints` | lib/store.ts:27-33 | points become the upsert; strategies are unchanged; the persisted snapshot equals the new pair of lists; unique ids stay unique |
| `CompareGrid.RarDivisor` | components/strategy-compare-grid.tsx:17 | the divisor is at least 0.01 and at least the distance, and equals one of them |
| `CompareGrid.Rar` | components/strategy-compare-grid.tsx:23 | `rar * divisor == netROE`, so rar is defined even for a negative distance |
| `CompareGrid.MaxOf` | components/strategy-compare-grid.tsx:14 | `Math.max` over a non-empty list is at least every element and is one of them |
| `CompareGrid.BadgesOf` | components/strategy-compare-grid.tsx:33-35 | each badge is shown exactly when the card's value equals the corresponding maximum; at most three badges, none repeated, "Maior ROE" first and "Melhor risco/retorno" last |
| `CompareGrid.Render` | components/strategy-compare-grid.tsx:9-60 | an empty list gives the placeholder; otherwise there is one card per strategy, in order, with its rar and exactly the badges `BadgesOf` gives against the three maxima |
| `CompareGrid.AtMaxIffMaximal` | components/strategy-compare-grid.tsx:14 | an element equals the maximum exactly when no element exceeds it |
| `CompareGrid.RoeBadgeAt` | components/strategy-compare-grid.tsx:14-33 | one card shows "Maior ROE" exactly when no compared ROE exceeds its own |
| `CompareGrid.RoeBadgeToTheBest` | components/strategy-compare-grid.tsx:33 | "Maior ROE" goes to exactly the cards whose ROE nobody beats, and at least one card gets it |
| `CompareGrid.SafetyBadgeAt` | components/strategy-compare-grid.tsx:15-34 | one card shows "Mais seguro" exactly when no compared distance exceeds its own |
| `CompareGrid.SafetyBadgeToTheBest` | components/strategy-compare-grid.tsx:34 | "Mais seguro" goes to exactly the cards whose distance nobody beats, and at least one card gets it |
| `CompareGrid.RarBadgeAt` | components/strategy-compare-grid.tsx:16-35 | one card shows "Melhor risco/retorno" exactly when no compared rar exceeds its own |
| `CompareGrid.RarBadgeToTheBest` | components/strategy-compare-grid.tsx:35 | "Melhor risco/retorno" goes to exactly the cards whose rar nobody beats, and at least one card gets it |
| `CompareGrid.BeatenRoeGetsNoBadge` | components/strategy-compare-grid.tsx:33 | a strategy whose ROE another beats never shows "Maior ROE" |
| `RiskPanel.Risks` | components/risk-panel.tsx:9-15 | no result gives exactly the prompt; a result gives three alerts (health factor, distance, ROE); each alert is the "below" message exactly when its metric is strictly under 1.5, 0.2 or 0.05 respectively |
| `PointsForm.ProjectedTotals` | components/points-form.tsx:64-71 | the range is exactly (minPoints, maxPoints); the total divided by `days * multiplier` (when non-zero) gives back the points per day; for schema-valid values the total is non-negative and zero exactly when no points are earned per day |
| `PointsForm.TotalAdditiveInDays` | components/points-form.tsx:65 | the projected total is additive in the number of days |
| `PointsForm.AirdropValue` | components/points-form.tsx:74 | the pool is `airdropPercent` percent of the FDV, and non-negative for non-negative inputs |
| `PointsForm.ValuePerPoint` | components/points-form.tsx:74-75 | value per point times `max(maxPoints, 1)` is the airdrop pool |
| `PointsForm.Scenarios` | components/points-form.tsx:73-90 | exactly three scenarios, Conservador, Base and Bull, on their own FDVs; each is priced: `vpp` is `ValuePerPoint` of its FDV, `minValue == vpp * minPoints` and `maxValue == vpp * maxPoints` |
| `PointsForm.ShareOfPool` | components/points-form.tsx:74-75 | a holding valued at the value per point is its share `points / max(maxPoints, 1)` of the airdrop pool `fdv * airdropPercent / 100` |
| `PointsForm.ScenarioShares` | components/points-form.tsx:82-87 | in every priced scenario (all three of `Scenarios` are), `minValue` and `maxValue` are the shares of the pool held by minPoints and maxPoints |
| `PointsForm.ScenarioRangeOrdered` | components/points-form.tsx:82-87 | with schema-valid values and minPoints <= maxPoints, `0 <= minValue <= maxValue` in every scenario |
| `PointsForm.MaxValueIsWholeAirdrop` | components/points-form.tsx:74-87 | in every priced scenario, when maxPoints >= 1, maxValue is the whole pool `fdv * airdropPercent / 100` |
| `PointsForm.ConfidenceOf` | components/points-form.tsx:92-97 | BAIXA exactly when either end is 0; ALTA exactly when both are non-zero and differ; MÉDIA exactly when they are equal and non-zero |
| `PointsForm.WatchedConfidence` | components/points-form.tsx:92-97 | on the watched values, BAIXA exactly when either end is the number 0; ALTA exactly when neither is and the two are not strictly equal (a string never equals a number); MÉDIA otherwise |
| `PointsForm.ConfidenceOfNumbers` | components/points-form.tsx:92-97 | while both ends hold numbers, the comparison as written is `ConfidenceOf` |
| `PointsForm.EditedMinimumShowsAlta` | components/points-form.tsx:92-97 | an edited (text) minimum against a numeric maximum shows ALTA whenever the maximum is not 0 |
| `PointsForm.EditedRangeMisjudged` | components/points-form.tsx:92-97 | a typed "0" against 14000 shows ALTA where the numbers give BAIXA; a typed "20000" against the effect's 20000 shows ALTA where the numbers give MÉDIA |
| `PointsForm.Normalised` | components/points-form.tsx:131 | afterwards minPoints <= maxPoints; the new maxPoints is the old minPoints or the old maxPoints, never below either, so it is their maximum; nothing else changes; an ordered range is left alone |
| `PointsForm.NormalisedIdempotent` | components/points-form.tsx:131 | applying the effect twice equals applying it once |
| `PointsForm.NormalisedConfidence` | components/points-form.tsx:92-97 | after the effect, ALTA means `0 < min < max` and MÉDIA means `0 < min == max` |
| `PointsForm.ToModel` | components/points-form.tsx:100-125 | the saved model carries the drawn id and every submitted value: project, points per day, days, multiplier, airdrop percent, the three FDVs, the points range and the six pro settings |
| `PointsForm.Form.NormaliseRange` | components/points-form.tsx:130-132 | the form values become their normalised form |
| `PointsForm.Form.Save` | components/points-form.tsx:99-128 | schema-valid values are saved as a points model at the head of the store, the persisted snapshot becomes the store's new lists (with a window), and the id is remembered; invalid values change nothing |

## Left out

- IEEE-754 doubles: every number is an exact `real`. Rounding, `NaN`, `Infinity` and `Math.max` over `NaN` are not modelled.
- Degenerate inputs: `ltvUsed` of 0 or ≥ 1, a zero liquidation threshold and a non-positive capital are excluded by precondition, because the code divides by them without a guard.
- Values that are only checked at the form boundary: the validated risk target is the subset type `RiskTarget` (15, 25 or 35), and the points form's schema is `PointsForm.SchemaValid`. The strategy form's hard-coded pro-mode overrides are form wiring, not engine behaviour.
- `localStorage`, `JSON.stringify` and `JSON.parse` are a slot holding either a parsed document or unparsable text. The model assumes a saved snapshot parses back to itself. The storage key string and the two-space export formatting are not modelled. Empty text and a stored `null` behave as unparsable text, as they do in the code.
- `crypto.randomUUID` is the `id` parameter of `PointsForm.Form.Save`. Zustand's `create`/`set` and React's `useMemo`/`useEffect` scheduling become plain method calls.
- Rendering: cards, number formatting (`toFixed`), the mode toggle and the "saved" link text are not modelled. The risk page's own stress matrix is presentation over `SimulateStrategy`, and its "Borrow +10%" row differs from `stressTests`. Neither is modelled.
- GetMarketSnapshot: `snapshots[marketId]` looks up a plain object literal. Ids naming `Object.prototype` members ("constructor", "toString", "__proto__", …) return the inherited member there, where the model returns `None`. The model treats the table as a map with no prototype.
- ListAssets: `assets[marketId] ?? []` has the same prototype lookup. For such ids the source returns the inherited member, not `[]`; the model returns `[]`.
- `JSON.parse(raw) as SavedSnapshot` (lib/storage.ts:14 and lib/storage.ts:53) is an unchecked cast. A stored or imported document whose `strategies` or `points` is not a list gets through, and a later `.filter` in lib/store.ts:22 or lib/store.ts:29 throws. The typed `Storage.Document` cannot express such a document.
- ConfidenceOf: like `NormalisedConfidence`, it compares the ends of the range as numbers. In the source the watched fields of the numeric inputs hold text once edited (components/points-form.tsx:186,190), and `===` does not convert. `PointsForm.WatchedConfidence` models that comparison, and the finding below records where the two differ. The totals, scenarios and the effect convert text to numbers through `*`, `/` and `Math.max`; the model leaves number parsing out and works on the numbers directly.
- The order of the audit-trail entries: the source builds an object whose keys are rendered in insertion order. `map<string, real>` keeps the labels and values but not their order.
- The `label` field of a stress result is called `caption`, because `label` is a Dafny keyword.

## Findings

| source | as written | input that shows it | evidently intended | confidence | as-written member | corrected member |
|---|---|---|---|---|---|---|
| components/points-form.tsx:92-97 | `confidence` compares the watched `minPoints`/`maxPoints` with `===`/`!==`, and an edited numeric input holds text | minPoints typed as "20000" above a maxPoints of 14000; the effect sets maxPoints to the number 20000, and `"20000" !== 20000` shows ALTA (likewise a typed "0" against 14000 shows ALTA, not BAIXA) | compare the numeric values: MÉDIA for equal non-zero ends, BAIXA for a zero end | medium; not executed | `PointsForm.EditedRangeMisjudged` | `PointsForm.NormalisedConfidence` |

=== FILE: catalogue_facts.dfy ===
/**
 * What the engine computes on the markets of the catalogue: every catalogued
 * market is safe at every recommended LTV, and the worked example of the
 * default strategy (eth-aave-usdc at risk target 25) in exact arithmetic.
 */
module CatalogueFacts {
  import opened Types
  import Providers
  import Simulate

  /** Every catalogued threshold exceeds the largest recommended LTV, so no default loop starts liquidatable. */
  lemma CatalogueAlwaysSafe(input: StrategyInput, marketId: string)
    requires Providers.GetMarketSnapshot(marketId).Some?
    requires input.manualLtv.None? && input.initialCapital > 0.0
    ensures var snapshot := Providers.GetMarketSnapshot(marketId).value;
            && Simulate.Simulable(input, snapshot)
            && Simulate.SimulateStrategy(input, snapshot).healthFactor > 1.0
            && Simulate.SimulateStrategy(input, snapshot).distanceToLiq > 0.0
  {
  }

  /** The default strategy on eth-aave-usdc, whatever the capital. */
  lemma EthAaveUsdcExample(input: StrategyInput)
    requires input.riskTarget == 25 && input.manualLtv.None? && input.slippage.None?
    requires input.initialCapital > 0.0
    ensures var snapshot := Providers.Snapshots["eth-aave-usdc"];
            var r := Simulate.SimulateStrategy(input, snapshot);
            && r.leverage == 20.0 / 7.0
            && r.fees == 0.003
            && r.netROE == 143.0 / 7000.0
            && r.healthFactor == 16.0 / 13.0
            && r.liquidationPrice == 13.0 / 16.0
            && r.distanceToLiq == 3.0 / 16.0
            && Simulate.BreakEvenBorrowRate(input, snapshot) == 0.083
  {
  }
}

=== FILE: compare_grid.dfy ===
/**
 * The ranking rules of the strategy comparison grid
 * (components/strategy-compare-grid.tsx): the three maxima over the compared
 * results, the risk-adjusted return of each, and which card gets which badge.
 */
module CompareGrid {
  import opened Types

  /** A compared strategy with its simulated result. */
  datatype Item = Item(input: StrategyInput, result: StrategyResult)

  datatype Badge = MaiorRoe | MaisSeguro | MelhorRiscoRetorno

  datatype Card = Card(item: Item, rar: real, badges: seq<Badge>)

  /** The placeholder for an empty comparison, or one card per strategy. */
  datatype Grid = Placeholder | Cards(cards: seq<Card>)

  /** The distance below which the risk-adjusted return stops growing. */
  const RarFloor: real := 0.01

  /** `Math.max(distanceToLiq, 0.01)`. */
  function RarDivisor(distanceToLiq: real): (d: real)
    ensures d >= RarFloor && d >= distanceToLiq
    ensures d == distanceToLiq || d == RarFloor
  {
    if distanceToLiq >= RarFloor then distanceToLiq else RarFloor
  }

  /** Risk-adjusted return: ROE per unit of distance to liquidation, defined even for negative distances. */
  function Rar(result: StrategyResult): (r: real)
    ensures r * RarDivisor(result.distanceToLiq) == result.netROE
  {
    result.netROE / RarDivisor(result.distanceToLiq)
  }

  /** `Math.max(...xs)` for a non-empty list. */
  function MaxOf(xs: seq<real>): (m: real)
    requires |xs| > 0
    ensures forall i :: 0 <= i < |xs| ==> xs[i] <= m
    ensures m in xs
  {
    if |xs| == 1 then xs[0]
    else
      var rest := MaxOf(xs[1..]);
      if xs[0] >= rest then xs[0] else rest
  }

  function Roes(items: seq<Item>): (r: seq<real>)
    ensures |r| == |items|
    ensures forall i :: 0 <= i < |items| ==> r[i] == items[i].result.netROE
  {
    seq(|items|, i requires 0 <= i < |items| => items[i].result.netROE)
  }

  function Safeties(items: seq<Item>): (r: seq<real>)
    ensures |r| == |items|
    ensures forall i :: 0 <= i < |items| ==> r[i] == items[i].result.distanceToLiq
  {
    seq(|items|, i requires 0 <= i < |items| => items[i].result.distanceToLiq)
  }

  function Rars(items: seq<Item>): (r: seq<real>)
    ensures |r| == |items|
    ensures forall i :: 0 <= i < |items| ==> r[i] == Rar(items[i].result)
  {
    seq(|items|, i requires 0 <= i < |items| => Rar(items[i].result))
  }

  /** The badges of one card, in display order. */
  function BadgesOf(item: Item, topRoe: real, topSafety: real, topRar: real): (r: seq<Badge>)
    ensures MaiorRoe in r <==> item.result.netROE == topRoe
    ensures MaisSeguro in r <==> item.result.distanceToLiq == topSafety
    ensures MelhorRiscoRetorno in r <==> Rar(item.result) == topRar
    ensures |r| <= 3
    ensures forall i, j :: 0 <= i < j < |r| ==> r[i] != r[j]
    ensures MaiorRoe in r ==> r[0] == MaiorRoe
    ensures MelhorRiscoRetorno in r ==> r[|r| - 1] == MelhorRiscoRetorno
  {
    (if item.result.netROE == topRoe then [MaiorRoe] else [])
    + (if item.result.distanceToLiq == topSafety then [MaisSeguro] else [])
    + (if Rar(item.result) == topRar then [MelhorRiscoRetorno] else [])
  }

  /** StrategyCompareGrid */
  function Render(items: seq<Item>): (g: Grid)
    ensures g.Placeholder? <==> items == []
    ensures g.Cards? ==> |g.cards| == |items|
    ensures g.Cards? ==> forall i :: 0 <= i < |items| ==>
                           g.cards[i].item == items[i] && g.cards[i].rar == Rar(items[i].result)
    ensures g.Cards? ==> forall i :: 0 <= i < |items| ==>
                           g.cards[i].badges == BadgesOf(items[i], MaxOf(Roes(items)), MaxOf(Safeties(items)), MaxOf(Rars(items)))
  {
    if |items| == 0 then Placeholder
    else
      var topRoe := MaxOf(Roes(items));
      var topSafety := MaxOf(Safeties(items));
      var topRar := MaxOf(Rars(items));
      Cards(seq(|items|, i requires 0 <= i < |items| =>
        Card(items[i], Rar(items[i].result), BadgesOf(items[i], topRoe, topSafety, topRar))))
  }

  /** A value equals the maximum exactly when no value exceeds it. */
  lemma AtMaxIffMaximal(xs: seq<real>, i: int)
    requires 0 <= i < |xs|
    ensures xs[i] == MaxOf(xs) <==> forall j :: 0 <= j < |xs| ==> xs[j] <= xs[i]
  {
    var m := MaxOf(xs);
    var k :| 0 <= k < |xs| && xs[k] == m;
  }

  /** One card shows "Maior ROE" exactly when no compared ROE exceeds its own. */
  lemma RoeBadgeAt(items: seq<Item>, i: int)
    requires 0 <= i < |items|
    ensures MaiorRoe in Render(items).cards[i].badges <==>
            forall j :: 0 <= j < |items| ==> items[j].result.netROE <= items[i].result.netROE
  {
    var xs := Roes(items);
    assert Render(items).cards[i].badges
           == BadgesOf(items[i], MaxOf(Roes(items)), MaxOf(Safeties(items)), MaxOf(Rars(items)));
    AtMaxIffMaximal(xs, i);
  }

  /** "Maior ROE" goes to exactly the cards whose ROE no other card beats, so at least one gets it. */
  lemma RoeBadgeToTheBest(items: seq<Item>)
    requires items != []
    ensures var g := Render(items);
            && (forall i :: 0 <= i < |items| ==>
                  (MaiorRoe in g.cards[i].badges <==>
                   forall j :: 0 <= j < |items| ==> items[j].result.netROE <= items[i].result.netROE))
            && (exists i :: 0 <= i < |items| && MaiorRoe in g.cards[i].badges)
  {
    forall i | 0 <= i < |items|
      ensures MaiorRoe in Render(items).cards[i].badges <==>
              forall j :: 0 <= j < |items| ==> items[j].result.netROE <= items[i].result.netROE
    {
      RoeBadgeAt(items, i);
    }
    var xs := Roes(items);
    var k :| 0 <= k < |xs| && xs[k] == MaxOf(xs);
    assert forall j :: 0 <= j < |items| ==> items[j].result.netROE <= items[k].result.netROE;
    RoeBadgeAt(items, k);
  }

  /** One card shows "Mais seguro" exactly when no compared distance to liquidation exceeds its own. */
  lemma SafetyBadgeAt(items: seq<Item>, i: int)
    requires 0 <= i < |items|
    ensures MaisSeguro in Render(items).cards[i].badges <==>
            forall j :: 0 <= j < |items| ==> items[j].result.distanceToLiq <= items[i].result.distanceToLiq
  {
    var xs := Safeties(items);
    assert Render(items).cards[i].badges
           == BadgesOf(items[i], MaxOf(Roes(items)), MaxOf(Safeties(items)), MaxOf(Rars(items)));
    AtMaxIffMaximal(xs, i);
  }

  /** "Mais seguro" goes to exactly the cards whose distance to liquidation no other card beats. */
  lemma SafetyBadgeToTheBest(items: seq<Item>)
    requires items != []
    ensures var g := Render(items);
            && (forall i :: 0 <= i < |items| ==>
                  (MaisSeguro in g.cards[i].badges <==>
                   forall j :: 0 <= j < |items| ==> items[j].result.distanceToLiq <= items[i].result.distanceToLiq))
            && (exists i :: 0 <= i < |items| && MaisSeguro in g.cards[i].badges)
  {
    forall i | 0 <= i < |items|
      ensures MaisSeguro in Render(items).cards[i].badges <==>
              forall j :: 0 <= j < |items| ==> items[j].result.distanceToLiq <= items[i].result.distanceToLiq
    {
      SafetyBadgeAt(items, i);
    }
    var xs := Safeties(items);
    var k :| 0 <= k < |xs| && xs[k] == MaxOf(xs);
    assert forall j :: 0 <= j < |items| ==> items[j].result.distanceToLiq <= items[k].result.distanceToLiq;
    SafetyBadgeAt(items, k);
  }

  /** One card shows "Melhor risco/retorno" exactly when no compared risk-adjusted return exceeds its own. */
  lemma RarBadgeAt(items: seq<Item>, i: int)
    requires 0 <= i < |items|
    ensures MelhorRiscoRetorno in Render(items).cards[i].badges <==>
            forall j :: 0 <= j < |items| ==> Rar(items[j].result) <= Rar(items[i].result)
  {
    var xs := Rars(items);
    assert Render(items).cards[i].badges
           == BadgesOf(items[i], MaxOf(Roes(items)), MaxOf(Safeties(items)), MaxOf(Rars(items)));
    AtMaxIffMaximal(xs, i);
  }

  /** "Melhor risco/retorno" goes to exactly the cards whose risk-adjusted return no other card beats. */
  lemma RarBadgeToTheBest(items: seq<Item>)
    requires items != []
    ensures var g := Render(items);
            && (forall i :: 0 <= i < |items| ==>
                  (MelhorRiscoRetorno in g.cards[i].badges <==>
                   forall j :: 0 <= j < |items| ==> Rar(items[j].result) <= Rar(items[i].result)))
            && (exists i :: 0 <= i < |items| && MelhorRiscoRetorno in g.cards[i].badges)
  {
    forall i | 0 <= i < |items|
      ensures MelhorRiscoRetorno in Render(items).cards[i].badges <==>
              forall j :: 0 <= j < |items| ==> Rar(items[j].result) <= Rar(items[i].result)
    {
      RarBadgeAt(items, i);
    }
    var xs := Rars(items);
    var k :| 0 <= k < |xs| && xs[k] == MaxOf(xs);
    assert forall j :: 0 <= j < |items| ==> Rar(items[j].result) <= Rar(items[k].result);
    RarBadgeAt(items, k);
  }

  /** A strategy whose ROE another strategy beats never shows "Maior ROE". */
  lemma BeatenRoeGetsNoBadge(items: seq<Item>, i: int, j: int)
    requires 0 <= i < |items| && 0 <= j < |items|
    requires items[i].result.netROE < items[j].result.netROE
    ensures MaiorRoe !in Render(items).cards[i].badges
  {
    RoeBadgeToTheBest(items);
  }
}

=== FILE: points_form.dfy ===
/**
 * The arithmetic of the points/airdrop form (components/points-form.tsx): the
 * projected points total, the three valuation scenarios, the confidence label,
 * the effect that keeps the maximum at least the minimum, and saving a model.
 */
module PointsForm {
  import opened Wrappers
  import opened Types
  import Upsert
  import Storage
  import Store

  /**
   * The form's fields as numbers: what the schema's coercion hands to the save,
   * and what the watched values are until the user edits a numeric field
   * (an edited field holds its text; see `Watched`).
   */
  datatype FormValues = FormValues(
    project: string,
    pointsPerDay: real,
    days: real,
    multiplier: real,
    airdropPercent: real,
    fdvConservative: real,
    fdvBase: real,
    fdvBull: real,
    minPoints: real,
    maxPoints: real,
    totalSupply: Option<real>,
    recipients: Option<real>,
    capPerUser: Option<real>,
    sybilDiscount: Option<real>,
    tgeUnlock: Option<real>,
    vestingMonths: Option<real>)

  /** The bounds of the form schema: a name, non-negative amounts, at least one day, a multiplier of at least 0.1. */
  predicate SchemaValid(v: FormValues)
  {
    && |v.project| >= 1
    && v.pointsPerDay >= 0.0
    && v.days >= 1.0
    && v.multiplier >= 0.1
    && v.airdropPercent >= 0.0
    && v.fdvConservative >= 0.0 && v.fdvBase >= 0.0 && v.fdvBull >= 0.0
    && v.minPoints >= 0.0 && v.maxPoints >= 0.0
  }

  function MaxReal(a: real, b: real): (m: real)
    ensures m >= a && m >= b && (m == a || m == b)
  {
    if a >= b then a else b
  }

  datatype Totals = Totals(total: real, range: PointsRange)

  /** `totals`: the projected points and the declared range. */
  function ProjectedTotals(v: FormValues): (t: Totals)
    ensures t.range.minPoints == v.minPoints && t.range.maxPoints == v.maxPoints
    ensures v.days * v.multiplier != 0.0 ==> t.total / (v.days * v.multiplier) == v.pointsPerDay
    ensures SchemaValid(v) ==> t.total >= 0.0 && (t.total == 0.0 <==> v.pointsPerDay == 0.0)
  {
    Totals(v.pointsPerDay * v.days * v.multiplier, PointsRange(v.minPoints, v.maxPoints))
  }

  /** The total grows linearly with the number of days: d1 + d2 days project the sum of the two totals. */
  lemma TotalAdditiveInDays(v: FormValues, d1: real, d2: real)
    ensures ProjectedTotals(v.(days := d1 + d2)).total
            == ProjectedTotals(v.(days := d1)).total + ProjectedTotals(v.(days := d2)).total
  {
    var p, k := v.pointsPerDay, v.multiplier;
    assert p * (d1 + d2) == p * d1 + p * d2;
    assert (p * d1 + p * d2) * k == p * d1 * k + p * d2 * k;
  }

  datatype Scenario = Scenario(caption: string, fdv: real, vpp: real, minValue: real, maxValue: real)

  /** The share of a valuation handed out as airdrop. */
  function AirdropValue(v: FormValues, fdv: real): (value: real)
    ensures value * 100.0 == fdv * v.airdropPercent
    ensures fdv >= 0.0 && v.airdropPercent >= 0.0 ==> value >= 0.0
  {
    (fdv * (v.airdropPercent / 100.0)) / 1.0
  }

  /** The airdrop divided over the maximum points, never over fewer than one point. */
  function ValuePerPoint(v: FormValues, fdv: real): (vpp: real)
    ensures vpp * MaxReal(v.maxPoints, 1.0) == AirdropValue(v, fdv)
  {
    AirdropValue(v, fdv) / MaxReal(v.maxPoints, 1.0)
  }

  /** A scenario priced at the value per point of its own valuation, applied to both ends of the range. */
  predicate Priced(v: FormValues, s: Scenario)
  {
    && s.vpp == ValuePerPoint(v, s.fdv)
    && s.minValue == s.vpp * v.minPoints
    && s.maxValue == s.vpp * v.maxPoints
  }

  function ScenarioAt(v: FormValues, caption: string, fdv: real): (s: Scenario)
    ensures s.caption == caption && s.fdv == fdv && Priced(v, s)
  {
    var vpp := ValuePerPoint(v, fdv);
    Scenario(caption, fdv, vpp, vpp * v.minPoints, vpp * v.maxPoints)
  }

  /** `scenarios`: conservative, base and bull valuations, in that order. */
  function Scenarios(v: FormValues): (r: seq<Scenario>)
    ensures |r| == 3
    ensures r[0].caption == "Conservador" && r[0].fdv == v.fdvConservative
    ensures r[1].caption == "Base" && r[1].fdv == v.fdvBase
    ensures r[2].caption == "Bull" && r[2].fdv == v.fdvBull
    ensures forall i :: 0 <= i < 3 ==> Priced(v, r[i])
  {
    [ScenarioAt(v, "Conservador", v.fdvConservative),
     ScenarioAt(v, "Base", v.fdvBase),
     ScenarioAt(v, "Bull", v.fdvBull)]
  }

  lemma ScenarioAtOrdered(v: FormValues, caption: string, fdv: real)
    requires SchemaValid(v) && v.minPoints <= v.maxPoints && fdv >= 0.0
    ensures 0.0 <= ScenarioAt(v, caption, fdv).minValue <= ScenarioAt(v, caption, fdv).maxValue
  {
    var vpp := ValuePerPoint(v, fdv);
    var d := MaxReal(v.maxPoints, 1.0);
    assert vpp * d == AirdropValue(v, fdv) >= 0.0;
    assert vpp >= 0.0;
    assert vpp * (v.maxPoints - v.minPoints) >= 0.0;
    assert vpp * v.minPoints >= 0.0;
  }

  /** With schema-valid values and an ordered range, every scenario's value range is ordered and non-negative. */
  lemma ScenarioRangeOrdered(v: FormValues)
    requires SchemaValid(v) && v.minPoints <= v.maxPoints
    ensures forall i :: 0 <= i < 3 ==> 0.0 <= Scenarios(v)[i].minValue <= Scenarios(v)[i].maxValue
  {
    ScenarioAtOrdered(v, "Conservador", v.fdvConservative);
    ScenarioAtOrdered(v, "Base", v.fdvBase);
    ScenarioAtOrdered(v, "Bull", v.fdvBull);
  }

  /** A holding of `points`, valued at the value per point, is its share `points / max(maxPoints, 1)` of the pool. */
  lemma ShareOfPool(v: FormValues, fdv: real, points: real, value: real)
    requires value == ValuePerPoint(v, fdv) * points
    ensures value * MaxReal(v.maxPoints, 1.0) * 100.0 == fdv * v.airdropPercent * points
  {
    var vpp, d, pool := ValuePerPoint(v, fdv), MaxReal(v.maxPoints, 1.0), AirdropValue(v, fdv);
    assert value * d * 100.0 == (vpp * d) * 100.0 * points;
    assert (vpp * d) * 100.0 * points == pool * 100.0 * points;
  }

  /** A scenario priced at the value per point values both ends of the range as their shares of the pool. */
  lemma ScenarioShares(v: FormValues, s: Scenario)
    requires Priced(v, s)
    ensures s.minValue * MaxReal(v.maxPoints, 1.0) * 100.0 == s.fdv * v.airdropPercent * v.minPoints
    ensures s.maxValue * MaxReal(v.maxPoints, 1.0) * 100.0 == s.fdv * v.airdropPercent * v.maxPoints
  {
    ShareOfPool(v, s.fdv, v.minPoints, s.minValue);
    ShareOfPool(v, s.fdv, v.maxPoints, s.maxValue);
  }

  /** Holding the maximum points (at least one) earns the whole airdrop of the scenario's valuation. */
  lemma MaxValueIsWholeAirdrop(v: FormValues, s: Scenario)
    requires Priced(v, s) && v.maxPoints >= 1.0
    ensures s.maxValue == s.fdv * v.airdropPercent / 100.0
  {
    assert MaxReal(v.maxPoints, 1.0) == v.maxPoints;
    assert s.maxValue == AirdropValue(v, s.fdv);
  }

  datatype Confidence = Baixa | Alta | Media

  /** `confidence`: low when either end of the range is zero, high when the ends differ, medium otherwise. */
  function ConfidenceOf(v: FormValues): (c: Confidence)
    ensures c == Baixa <==> v.minPoints == 0.0 || v.maxPoints == 0.0
    ensures c == Alta <==> v.minPoints != 0.0 && v.maxPoints != 0.0 && v.minPoints != v.maxPoints
    ensures c == Media <==> v.minPoints != 0.0 && v.minPoints == v.maxPoints
  {
    if v.minPoints == 0.0 || v.maxPoints == 0.0 then Baixa
    else if v.minPoints != v.maxPoints then Alta
    else Media
  }

  /**
   * A watched field: a number until the user edits it, then the text of the
   * numeric input, which is not converted before the confidence comparison.
   */
  datatype Watched = Num(n: real) | Text(s: string)

  /** Strict equality `===`: a number never equals a string. */
  predicate StrictEquals(a: Watched, b: Watched)
  {
    match (a, b)
    case (Num(x), Num(y)) => x == y
    case (Text(x), Text(y)) => x == y
    case _ => false
  }

  /** `confidence` as written, on the watched minimum and maximum. */
  function WatchedConfidence(minPoints: Watched, maxPoints: Watched): (c: Confidence)
    ensures c == Baixa <==> minPoints == Num(0.0) || maxPoints == Num(0.0)
    ensures c == Alta <==> minPoints != Num(0.0) && maxPoints != Num(0.0) && !StrictEquals(minPoints, maxPoints)
    ensures c == Media <==> minPoints != Num(0.0) && maxPoints != Num(0.0) && StrictEquals(minPoints, maxPoints)
  {
    if StrictEquals(minPoints, Num(0.0)) || StrictEquals(maxPoints, Num(0.0)) then Baixa
    else if !StrictEquals(minPoints, maxPoints) then Alta
    else Media
  }

  /** While both fields hold numbers, the comparison as written is `ConfidenceOf`. */
  lemma ConfidenceOfNumbers(v: FormValues)
    ensures ConfidenceOf(v) == WatchedConfidence(Num(v.minPoints), Num(v.maxPoints))
  {
  }

  /** An edited minimum against the numeric maximum is never equal to it: ALTA unless the maximum is 0. */
  lemma EditedMinimumShowsAlta(text: string, maxPoints: real)
    ensures WatchedConfidence(Text(text), Num(maxPoints)) == if maxPoints == 0.0 then Baixa else Alta
  {
  }

  /**
   * The two ranges on which the comparison as written and the numbers disagree:
   * a typed "0" against 14000, and a typed "20000" after the effect raised the maximum to 20000.
   */
  lemma EditedRangeMisjudged()
    ensures WatchedConfidence(Text("0"), Num(14000.0)) == Alta
    ensures WatchedConfidence(Num(0.0), Num(14000.0)) == Baixa
    ensures WatchedConfidence(Text("20000"), Num(20000.0)) == Alta
    ensures WatchedConfidence(Num(20000.0), Num(20000.0)) == Media
  {
    EditedMinimumShowsAlta("0", 14000.0);
    EditedMinimumShowsAlta("20000", 20000.0);
  }

  /** The effect on the range: the maximum is raised to the minimum when below it. */
  function Normalised(v: FormValues): (w: FormValues)
    ensures w.minPoints <= w.maxPoints
    ensures w.maxPoints >= v.maxPoints
    ensures w.maxPoints == v.minPoints || w.maxPoints == v.maxPoints
    ensures v.minPoints <= v.maxPoints ==> w == v
    ensures w.(maxPoints := v.maxPoints) == v
  {
    v.(maxPoints := MaxReal(v.minPoints, v.maxPoints))
  }

  /** Running the effect again changes nothing. */
  lemma NormalisedIdempotent(v: FormValues)
    ensures Normalised(Normalised(v)) == Normalised(v)
  {
  }

  /** After the effect, with schema-valid values, high confidence means a proper range. */
  lemma NormalisedConfidence(v: FormValues)
    requires SchemaValid(v)
    ensures var w := Normalised(v);
            && (ConfidenceOf(w) == Alta <==> 0.0 < w.minPoints < w.maxPoints)
            && (ConfidenceOf(w) == Media <==> 0.0 < w.minPoints == w.maxPoints)
  {
  }

  /** The model saved from submitted values, under the freshly drawn identifier `id`. */
  function ToModel(id: string, data: FormValues): (m: PointsModel)
    ensures m.id == id && m.project == data.project
    ensures m.range == PointsRange(data.minPoints, data.maxPoints)
    ensures m.pointsPerDay == data.pointsPerDay && m.days == data.days
    ensures m.multiplier == data.multiplier && m.airdropPercent == data.airdropPercent
    ensures m.fdv == Fdv(data.fdvConservative, data.fdvBase, data.fdvBull)
    ensures m.pro == ProSettings(data.totalSupply, data.recipients, data.capPerUser, data.sybilDiscount,
                                 data.tgeUnlock, data.vestingMonths)
  {
    PointsModel(
      id, data.project, data.pointsPerDay, data.days, data.multiplier, data.airdropPercent,
      Fdv(data.fdvConservative, data.fdvBase, data.fdvBull),
      PointsRange(data.minPoints, data.maxPoints),
      ProSettings(data.totalSupply, data.recipients, data.capPerUser, data.sybilDiscount,
                  data.tgeUnlock, data.vestingMonths))
  }

  /** The form's state: its values, the identifier last saved, and the store it saves into. */
  class Form {
    var values: FormValues
    var savedId: Option<string>
    const store: Store.LoopLabStore

    constructor (values: FormValues, store: Store.LoopLabStore)
      ensures this.values == values && savedId.None? && this.store == store
    {
      this.values := values;
      this.savedId := None;
      this.store := store;
    }

    /** The effect `form.setValue('maxPoints', Math.max(minPoints, maxPoints))`. */
    method NormaliseRange()
      modifies this
      ensures values == Normalised(old(values))
      ensures savedId == old(savedId)
    {
      values := values.(maxPoints := MaxReal(values.minPoints, values.maxPoints));
    }

    /** onSave: when the values pass the schema, save them under `id` and remember it; otherwise nothing. */
    method Save(id: string)
      modifies this, store, store.storage
      ensures values == old(values)
      ensures SchemaValid(values) ==>
                && store.points == Upsert.UpsertFront(ToModel(id, values), old(store.points), Storage.PointsId)
                && store.strategies == old(store.strategies)
                && (store.storage.hasWindow ==> store.storage.Persisted() == store.Current())
                && (!store.storage.hasWindow ==> store.storage.slot == old(store.storage.slot))
                && savedId == Some(id)
      ensures !SchemaValid(values) ==>
                && store.points == old(store.points) && store.strategies == old(store.strategies)
                && store.storage.slot == old(store.storage.slot)
                && savedId == old(savedId)
    {
      if SchemaValid(values) {
        store.SavePoints(ToModel(id, values));
        savedId := Some(id);
      }
    }
  }
}

=== FILE: providers.dfy ===
/**
 * The static market catalogue (lib/providers.ts): four markets, their rate and
 * risk snapshots and their asset lists, with a filter and two keyed lookups.
 */
module Providers {
  import opened Wrappers
  import opened Types

  const Markets: seq<Market> := [
    Market("eth-aave-usdc", "ETH / USDC Core", Ethereum, AaveV3),
    Market("arb-aave-usdc", "ARB / USDC Core", Arbitrum, AaveV3),
    Market("op-morpho-weth", "OP / WETH Boost", Optimism, Morpho),
    Market("base-custom-usdbc", "BASE / USDbC Custom", Base, Custom)
  ]

  const Snapshots: map<string, MarketSnapshot> := map[
    "eth-aave-usdc" := MarketSnapshot(
      "eth-aave-usdc", 0.048, 0.072, 0.012, 0.008, 0.75, 0.8, 0.05, 320000000.0, 0.71,
      "Chainlink", ["Alta liquidez", "Recompensas estáveis"], ["Recompensas podem variar"]),
    "arb-aave-usdc" := MarketSnapshot(
      "arb-aave-usdc", 0.052, 0.079, 0.015, 0.01, 0.72, 0.78, 0.06, 180000000.0, 0.64,
      "Chainlink", ["Ambiente L2", "Baixa latência"], ["Risco de congestionamento em picos"]),
    "op-morpho-weth" := MarketSnapshot(
      "op-morpho-weth", 0.061, 0.083, 0.02, 0.012, 0.7, 0.76, 0.055, 95000000.0, 0.69,
      "TWAP + Chainlink", ["Boost de incentivos temporário"], ["Atenção a spikes de borrow"]),
    "base-custom-usdbc" := MarketSnapshot(
      "base-custom-usdbc", 0.043, 0.068, 0.01, 0.006, 0.68, 0.74, 0.07, 52000000.0, 0.58,
      "Pyth", ["Mercado emergente"], ["Liquidez moderada", "Oráculo híbrido"])
  ]

  const Assets: map<string, seq<string>> := map[
    "eth-aave-usdc" := ["ETH", "stETH", "USDC"],
    "arb-aave-usdc" := ["ETH", "ARB", "USDC"],
    "op-morpho-weth" := ["ETH", "WETH", "USDC"],
    "base-custom-usdbc" := ["ETH", "cbETH", "USDbC"]
  ]

  /** The identifiers of the catalogued markets. */
  predicate Catalogued(id: string)
  {
    exists i :: 0 <= i < |Markets| && Markets[i].id == id
  }

  /** The catalogued identifiers are exactly the four listed ones. */
  lemma CataloguedIds(id: string)
    ensures Catalogued(id) <==>
            id == "eth-aave-usdc" || id == "arb-aave-usdc" || id == "op-morpho-weth" || id == "base-custom-usdbc"
  {
    if id == "eth-aave-usdc" { assert Markets[0].id == id; }
    else if id == "arb-aave-usdc" { assert Markets[1].id == id; }
    else if id == "op-morpho-weth" { assert Markets[2].id == id; }
    else if id == "base-custom-usdbc" { assert Markets[3].id == id; }
  }

  /** The entries of `ms` on the given network and provider, in their order in `ms`. */
  function FilterMarkets(ms: seq<Market>, network: Network, provider: ProviderName): (r: seq<Market>)
    ensures |r| <= |ms|
    ensures forall m :: m in r <==> m in ms && m.network == network && m.provider == provider
  {
    if ms == [] then []
    else
      var rest := FilterMarkets(ms[1..], network, provider);
      if ms[0].network == network && ms[0].provider == provider then [ms[0]] + rest else rest
  }

  /** Filtering distributes over concatenation, so the selected markets keep their table order. */
  lemma {:induction false} FilterMarketsAppend(a: seq<Market>, b: seq<Market>, network: Network, provider: ProviderName)
    ensures FilterMarkets(a + b, network, provider) == FilterMarkets(a, network, provider) + FilterMarkets(b, network, provider)
  {
    if a == [] {
      assert a + b == b;
    } else {
      assert (a + b)[1..] == a[1..] + b;
      FilterMarketsAppend(a[1..], b, network, provider);
    }
  }

  /** listMarkets: the catalogued markets on `network` offered by `provider`, in table order. */
  function ListMarkets(network: Network, provider: ProviderName): (r: seq<Market>)
    ensures forall m :: m in r <==> m in Markets && m.network == network && m.provider == provider
    ensures |r| <= 1
  {
    FilterMarkets(Markets, network, provider)
  }

  /** getMarketSnapshot: `None` stands for the `undefined` of an unknown identifier. */
  function GetMarketSnapshot(marketId: string): (r: Option<MarketSnapshot>)
    ensures r.Some? <==> Catalogued(marketId)
    ensures r.Some? ==> r.value.marketId == marketId
    ensures r.Some? ==> r.value == Snapshots[marketId]
    ensures r.Some? ==> && 0.0 <= r.value.ltv < r.value.liquidationThreshold <= 1.0
                        && r.value.liquidationThreshold >= 0.74
  {
    CataloguedIds(marketId);
    if marketId in Snapshots then Some(Snapshots[marketId]) else None
  }

  /** listAssets: three symbols for a catalogued market, none otherwise. */
  function ListAssets(marketId: string): (r: seq<string>)
    ensures Catalogued(marketId) ==> |r| == 3
    ensures !Catalogued(marketId) ==> r == []
  {
    CataloguedIds(marketId);
    if marketId in Assets then Assets[marketId] else []
  }

  /** A network and provider select at most one market, and each market is the one its pair selects. */
  lemma ListMarketsSelectsOne(network: Network, provider: ProviderName)
    ensures |ListMarkets(network, provider)| <= 1
    ensures forall m :: m in Markets && m.network == network && m.provider == provider ==>
              ListMarkets(network, provider) == [m]
  {
  }

  /** There is no Morpho market on Ethereum. */
  lemma NoEthereumMorpho()
    ensures ListMarkets(Ethereum, Morpho) == []
  {
  }

  /** Every listed market has a snapshot and an asset list, and nothing else has either. */
  lemma CatalogueComplete()
    ensures forall id :: id in Snapshots <==> Catalogued(id)
    ensures forall id :: id in Assets <==> Catalogued(id)
  {
    forall id ensures id in Snapshots <==> Catalogued(id) {
      CataloguedIds(id);
    }
  }

  /** Each snapshot keeps 0 <= ltv < liquidationThreshold <= 1, with thresholds no lower than 0.74. */
  lemma SnapshotsWellFormed(id: string)
    requires id in Snapshots
    ensures var s := Snapshots[id];
            && 0.0 <= s.ltv < s.liquidationThreshold <= 1.0
            && s.liquidationThreshold >= 0.74
            && s.marketId == id
  {
  }
}

=== FILE: risk_panel.dfy ===
/**
 * The risk alerts of the risk panel (components/risk-panel.tsx): a prompt when
 * nothing was simulated, otherwise three threshold alerts.
 */
module RiskPanel {
  import opened Wrappers
  import opened Types

  const Prompt: string := "Simule uma estratégia para gerar alertas."
  const HfBelowBuffer: string := "Health factor abaixo do buffer recomendado."
  const HfWithinBuffer: string := "HF dentro do buffer recomendado."
  const LittleDistance: string := "Pouca distância até a liquidação."
  const ComfortableDistance: string := "Distância confortável até a liquidação."
  const LowRoe: string := "ROE orgânico baixo para o risco."
  const HealthyRoe: string := "ROE orgânico saudável para o risco."

  /** The recommended health-factor buffer, the comfortable distance and the healthy ROE. */
  const HfBuffer: real := 1.5
  const DistanceFloor: real := 0.2
  const RoeFloor: real := 0.05

  /** The `risks` list: one alert per metric, health factor first, then distance, then ROE. */
  function Risks(result: Option<StrategyResult>): (r: seq<string>)
    ensures result.None? ==> r == [Prompt]
    ensures result.Some? ==> |r| == 3
    ensures result.Some? ==>
              && (r[0] == HfBelowBuffer || r[0] == HfWithinBuffer)
              && (r[0] == HfBelowBuffer <==> result.value.healthFactor < HfBuffer)
    ensures result.Some? ==>
              && (r[1] == LittleDistance || r[1] == ComfortableDistance)
              && (r[1] == LittleDistance <==> result.value.distanceToLiq < DistanceFloor)
    ensures result.Some? ==>
              && (r[2] == LowRoe || r[2] == HealthyRoe)
              && (r[2] == LowRoe <==> result.value.netROE < RoeFloor)
  {
    match result
    case Some(res) =>
      [
        if res.healthFactor < HfBuffer then HfBelowBuffer else HfWithinBuffer,
        if res.distanceToLiq < DistanceFloor then LittleDistance else ComfortableDistance,
        if res.netROE < RoeFloor then LowRoe else HealthyRoe
      ]
    case None => [Prompt]
  }
}

=== FILE: simulate.dfy ===
/**
 * The leverage-loop calculator (lib/simulate.ts): the risk-target policy, the
 * steady-state metrics of a looped position, the fixed stress battery and the
 * break-even borrow rate. Every quantity is an exact `real`.
 */
module Simulate {
  import opened Wrappers
  import opened Types

  /** Flat base fee charged on every loop, before slippage. */
  const DefaultFees: real := 0.003

  /** LTV_TABLE: the loan-to-value recommended for each risk target. */
  function RecommendedLtv(riskTarget: RiskTarget): (ltv: real)
    ensures 0.55 <= ltv <= 0.72
  {
    if riskTarget == 15 then 0.55
    else if riskTarget == 25 then 0.65
    else 0.72
  }

  /** The LTV the simulation runs at: the manual override when present, else the table. */
  function LtvUsed(input: StrategyInput): (ltv: real)
    ensures input.manualLtv.Some? ==> ltv == input.manualLtv.value
    ensures input.manualLtv.None? ==> 0.55 <= ltv <= 0.72 && ltv == RecommendedLtv(input.riskTarget)
  {
    input.manualLtv.GetOr(RecommendedLtv(input.riskTarget))
  }

  /** The leverage reached by looping to `ltv`: 1 / (1 - ltv). */
  function Multiplier(ltv: real): (m: real)
    requires ltv < 1.0
    ensures m > 0.0
    ensures m * (1.0 - ltv) == 1.0
  {
    var d := 1.0 - ltv;
    assert d > 0.0;
    var m := 1.0 / d;
    assert m * d == 1.0;
    m
  }

  function IncentivesNet(snapshot: MarketSnapshot): real
  {
    snapshot.incentivesSupply + snapshot.incentivesBorrow
  }

  /** Base fee plus slippage, the latter given in percent and absent meaning 0. */
  function Fees(input: StrategyInput): (f: real)
    ensures input.slippage.None? ==> f == DefaultFees
    ensures (f - DefaultFees) * 100.0 == input.slippage.GetOr(0.0)
  {
    DefaultFees + input.slippage.GetOr(0.0) / 100.0
  }

  /** Supply yield on the whole collateral, borrow cost on the borrowed part, incentives and fees once. */
  function NetRoe(supplyAPY: real, borrowAPY: real, incentivesNet: real, fees: real, multiplier: real): (roe: real)
    ensures roe == supplyAPY + (multiplier - 1.0) * (supplyAPY - borrowAPY) + incentivesNet - fees
    ensures multiplier == 1.0 ==> roe == supplyAPY + incentivesNet - fees
  {
    supplyAPY * multiplier - borrowAPY * (multiplier - 1.0) + incentivesNet - fees
  }

  /** The preconditions the engine's divisions need (no guard exists in the code itself). */
  predicate Simulable(input: StrategyInput, snapshot: MarketSnapshot)
  {
    && 0.0 < LtvUsed(input) < 1.0
    && snapshot.liquidationThreshold > 0.0
    && input.initialCapital > 0.0
  }

  /** The audit trail: each value the simulation used, under its label, with the code's defaults. */
  function Assumptions(input: StrategyInput, snapshot: MarketSnapshot, ltvUsed: real, multiplier: real): map<string, real>
  {
    map[
      "LTV usado" := ltvUsed,
      "Fator de alavancagem" := multiplier,
      "Liquidação threshold" := snapshot.liquidationThreshold,
      "Bonus liquidação" := snapshot.liquidationBonus,
      "Slippage" := input.slippage.GetOr(0.0),
      "Buffer HF mínimo" := input.minHealthFactor.GetOr(1.6),
      "Depeg haircut" := input.depegHaircut.GetOr(0.0),
      "Borrow spike" := input.borrowSpike.GetOr(0.0)
    ]
  }

  /** Looping capital to `ltv`: the debt is the `ltv` share of the collateral, and the two ratios follow. */
  lemma PositionRatios(capital: real, ltv: real, threshold: real)
    requires capital > 0.0 && 0.0 < ltv < 1.0 && threshold > 0.0
    ensures var collateral := capital * Multiplier(ltv);
            var debt := collateral - capital;
            && debt == collateral * ltv
            && debt > 0.0
            && (collateral * threshold) / debt == threshold / ltv
            && (debt / threshold) / collateral == ltv / threshold
  {
    var m := Multiplier(ltv);
    var collateral := capital * m;
    var debt := collateral - capital;
    assert collateral - collateral * ltv == capital by {
      assert collateral * (1.0 - ltv) == capital * (m * (1.0 - ltv));
    }
    assert collateral > 0.0;
    assert debt == collateral * ltv;
    assert (collateral * threshold) / debt == threshold / ltv by {
      assert collateral * threshold == (threshold / ltv) * debt;
    }
    assert (debt / threshold) / collateral == ltv / threshold by {
      assert debt / threshold == (ltv / threshold) * collateral;
    }
  }

  /** simulateStrategy: the steady-state metrics of the looped position. */
  function SimulateStrategy(input: StrategyInput, snapshot: MarketSnapshot): (r: StrategyResult)
    requires Simulable(input, snapshot)
    ensures r.leverage == Multiplier(LtvUsed(input)) && r.leverage > 1.0
    ensures r.fees == Fees(input)
    ensures r.netROE == NetRoe(snapshot.supplyAPY, snapshot.borrowAPY, IncentivesNet(snapshot), r.fees, r.leverage)
    ensures r.healthFactor == snapshot.liquidationThreshold / LtvUsed(input)
    ensures r.liquidationPrice == LtvUsed(input) / snapshot.liquidationThreshold
    ensures r.distanceToLiq + r.liquidationPrice == 1.0
    ensures r.supplyAPY == snapshot.supplyAPY && r.borrowAPY == snapshot.borrowAPY
    ensures r.incentivesNet == snapshot.incentivesSupply + snapshot.incentivesBorrow
  {
    var ltvUsed := LtvUsed(input);
    var multiplier := Multiplier(ltvUsed);
    var incentivesNet := IncentivesNet(snapshot);
    var fees := Fees(input);
    var netROE := NetRoe(snapshot.supplyAPY, snapshot.borrowAPY, incentivesNet, fees, multiplier);
    var collateralValue := input.initialCapital * multiplier;
    var debtValue := collateralValue - input.initialCapital;
    PositionRatios(input.initialCapital, ltvUsed, snapshot.liquidationThreshold);
    var healthFactor := (collateralValue * snapshot.liquidationThreshold) / debtValue;
    var liquidationPrice := (debtValue / snapshot.liquidationThreshold) / collateralValue;
    var distanceToLiq := 1.0 - liquidationPrice;
    StrategyResult(
      netROE, healthFactor, liquidationPrice, distanceToLiq, multiplier,
      snapshot.supplyAPY, snapshot.borrowAPY, incentivesNet, fees,
      Assumptions(input, snapshot, ltvUsed, multiplier))
  }

  /** The three entries of the risk-target table, ordered as the targets are. */
  lemma RecommendedLtvMonotone(a: RiskTarget, b: RiskTarget)
    requires a < b
    ensures RecommendedLtv(a) < RecommendedLtv(b)
  {
  }

  /** Looping never de-levers: the multiplier is at least 1, and exactly 1 only without debt. */
  lemma LeverageAtLeastOne(ltv: real)
    requires 0.0 <= ltv < 1.0
    ensures Multiplier(ltv) >= 1.0
    ensures Multiplier(ltv) == 1.0 <==> ltv == 0.0
  {
    var m := Multiplier(ltv);
    assert m == 1.0 + m * ltv;
    assert m * ltv >= 0.0;
    if ltv > 0.0 {
      assert m * ltv > 0.0;
    }
  }

  /** A higher target LTV always means more leverage. */
  lemma LeverageIncreasing(a: real, b: real)
    requires 0.0 <= a < b < 1.0
    ensures Multiplier(a) < Multiplier(b)
  {
    var ma, mb := Multiplier(a), Multiplier(b);
    assert ma * (1.0 - a) == 1.0 && mb * (1.0 - b) == 1.0;
    assert ma * (1.0 - b) < 1.0 by {
      assert ma * (1.0 - b) < ma * (1.0 - a) by {
        assert ma * (a - b) < 0.0;
      }
    }
    assert ma * (1.0 - b) < mb * (1.0 - b);
  }

  /** The multiplier diverges as the LTV approaches 1: it exceeds any bound close enough to 1. */
  lemma LeverageDiverges(bound: real, ltv: real)
    requires bound >= 1.0
    requires 1.0 - 1.0 / bound < ltv < 1.0
    ensures Multiplier(ltv) > bound
  {
    var m := Multiplier(ltv);
    var d := 1.0 - ltv;
    var inv := 1.0 / bound;
    assert inv * bound == 1.0;
    assert d * bound < inv * bound by {
      assert (inv - d) * bound > 0.0;
    }
    assert m * d == 1.0;
    assert (m - bound) * d > 0.0;
    assert d > 0.0;
  }

  /** Health factor and liquidation price are reciprocal. */
  lemma HealthTimesLiquidationPrice(input: StrategyInput, snapshot: MarketSnapshot)
    requires Simulable(input, snapshot)
    ensures var r := SimulateStrategy(input, snapshot);
            r.healthFactor * r.liquidationPrice == 1.0
  {
  }

  /** Every metric is a ratio: the capital invested changes nothing in the result. */
  lemma CapitalIndependent(input: StrategyInput, snapshot: MarketSnapshot, capital: real)
    requires Simulable(input, snapshot) && capital > 0.0
    ensures SimulateStrategy(input.(initialCapital := capital), snapshot) == SimulateStrategy(input, snapshot)
  {
  }

  /** The overrides that are only echoed never move a metric; they reach the audit trail alone. */
  lemma EchoedOverridesInert(input: StrategyInput, snapshot: MarketSnapshot,
                             minHealthFactor: Option<real>, borrowSpike: Option<real>,
                             depegHaircut: Option<real>, liquidationBonus: Option<real>,
                             loopStopThreshold: Option<real>)
    requires Simulable(input, snapshot)
    ensures var input' := input.(minHealthFactor := minHealthFactor, borrowSpike := borrowSpike,
                                 depegHaircut := depegHaircut, liquidationBonus := liquidationBonus,
                                 loopStopThreshold := loopStopThreshold);
            var r, r' := SimulateStrategy(input, snapshot), SimulateStrategy(input', snapshot);
            r'.(assumptions := r.assumptions) == r
  {
  }

  /** The audit trail echoes the values actually used, with the documented defaults. */
  lemma AssumptionsAuditTrail(input: StrategyInput, snapshot: MarketSnapshot)
    requires Simulable(input, snapshot)
    ensures var r := SimulateStrategy(input, snapshot);
            var a := r.assumptions;
            && a.Keys == {"LTV usado", "Fator de alavancagem", "Liquidação threshold", "Bonus liquidação",
                          "Slippage", "Buffer HF mínimo", "Depeg haircut", "Borrow spike"}
            && a["LTV usado"] == LtvUsed(input)
            && a["Fator de alavancagem"] == r.leverage
            && a["LTV usado"] / a["Liquidação threshold"] == r.liquidationPrice
            && a["Liquidação threshold"] / a["LTV usado"] == r.healthFactor
            && a["Bonus liquidação"] == snapshot.liquidationBonus
            && a["Slippage"] == input.slippage.GetOr(0.0)
            && a["Buffer HF mínimo"] == input.minHealthFactor.GetOr(1.6)
            && a["Depeg haircut"] == input.depegHaircut.GetOr(0.0)
            && a["Borrow spike"] == input.borrowSpike.GetOr(0.0)
            && r.fees == DefaultFees + a["Slippage"] / 100.0
            && (input.slippage.None? ==> a["Slippage"] == 0.0 && r.fees == DefaultFees)
            && (input.minHealthFactor.None? ==> a["Buffer HF mínimo"] == 1.6)
            && (input.depegHaircut.None? ==> a["Depeg haircut"] == 0.0)
            && (input.borrowSpike.None? ==> a["Borrow spike"] == 0.0)
  {
  }

  // ---------------------------------------------------------------------------
  // Stress battery

  /** One row of the fixed shock table. */
  datatype Shock = Shock(caption: string, priceShock: real, borrowShock: real)

  const Shocks: seq<Shock> := [
    Shock("Preço -10%", -0.1, 0.0),
    Shock("Preço -20%", -0.2, 0.0),
    Shock("Preço -30%", -0.3, 0.0),
    Shock("Borrow +5%", 0.0, 0.05),
    Shock("Borrow +10%", 0.0, 0.1)
  ]

  /** A first-order shock of the base result: price scales the health factor, borrow cost lowers the ROE. */
  function ApplyShock(base: StrategyResult, shock: Shock): (r: StressResult)
    ensures r.caption == shock.caption
    ensures shock.borrowShock == 0.0 ==> r.netROE == base.netROE
    ensures shock.priceShock == 0.0 ==> r.healthFactor == base.healthFactor
    ensures base.healthFactor > 0.0 && shock.priceShock < 0.0 ==> r.healthFactor < base.healthFactor
    ensures shock.borrowShock > 0.0 ==> r.netROE < base.netROE
  {
    StressResult(shock.caption, base.healthFactor * (1.0 + shock.priceShock), base.netROE - shock.borrowShock)
  }

  /** stressTests: every scenario is derived from the one base simulation, none from another. */
  function StressTests(input: StrategyInput, snapshot: MarketSnapshot): (r: seq<StressResult>)
    requires Simulable(input, snapshot)
    ensures |r| == 5
    ensures r[0].caption == "Preço -10%" && r[1].caption == "Preço -20%" && r[2].caption == "Preço -30%"
    ensures r[3].caption == "Borrow +5%" && r[4].caption == "Borrow +10%"
    ensures var base := SimulateStrategy(input, snapshot);
            && r[0].healthFactor == base.healthFactor * 0.9 && r[0].netROE == base.netROE
            && r[1].healthFactor == base.healthFactor * 0.8 && r[1].netROE == base.netROE
            && r[2].healthFactor == base.healthFactor * 0.7 && r[2].netROE == base.netROE
            && r[3].healthFactor == base.healthFactor && r[3].netROE == base.netROE - 0.05
            && r[4].healthFactor == base.healthFactor && r[4].netROE == base.netROE - 0.1
  {
    var base := SimulateStrategy(input, snapshot);
    seq(|Shocks|, i requires 0 <= i < |Shocks| => ApplyShock(base, Shocks[i]))
  }

  /** The battery is ordered by severity, and each scenario is strictly worse than the base on its own axis. */
  lemma StressSeverityOrder(input: StrategyInput, snapshot: MarketSnapshot)
    requires Simulable(input, snapshot)
    ensures var base, r := SimulateStrategy(input, snapshot), StressTests(input, snapshot);
            && r[2].healthFactor < r[1].healthFactor < r[0].healthFactor < base.healthFactor
            && r[4].netROE < r[3].netROE < base.netROE
  {
  }

  // ---------------------------------------------------------------------------
  // Break-even solver

  /** breakEvenBorrowRate: the borrow APY at which the net ROE vanishes, all else fixed. */
  function BreakEvenBorrowRate(input: StrategyInput, snapshot: MarketSnapshot): (be: real)
    requires 0.0 < LtvUsed(input) < 1.0
    ensures NetRoe(snapshot.supplyAPY, be, IncentivesNet(snapshot), Fees(input), Multiplier(LtvUsed(input))) == 0.0
  {
    var ltvUsed := LtvUsed(input);
    var multiplier := Multiplier(ltvUsed);
    var incentivesNet := IncentivesNet(snapshot);
    var fees := Fees(input);
    LeverageAtLeastOne(ltvUsed);
    var top := snapshot.supplyAPY * multiplier + incentivesNet - fees;
    var be := top / (multiplier - 1.0);
    assert be * (multiplier - 1.0) == top;
    be
  }

  /** The net ROE is the borrowed share times the margin between break-even and actual borrow rates. */
  lemma NetRoeViaBreakEven(input: StrategyInput, snapshot: MarketSnapshot)
    requires Simulable(input, snapshot)
    ensures var r := SimulateStrategy(input, snapshot);
            r.netROE == (r.leverage - 1.0) * (BreakEvenBorrowRate(input, snapshot) - snapshot.borrowAPY)
  {
    var m := Multiplier(LtvUsed(input));
    LeverageAtLeastOne(LtvUsed(input));
    var top := snapshot.supplyAPY * m + IncentivesNet(snapshot) - Fees(input);
    assert (top / (m - 1.0)) * (m - 1.0) == top;
  }

  /** Round trip: borrowing at exactly the break-even rate gives a net ROE of zero. */
  lemma BreakEvenRoundTrip(input: StrategyInput, snapshot: MarketSnapshot)
    requires Simulable(input, snapshot)
    ensures SimulateStrategy(input, snapshot.(borrowAPY := BreakEvenBorrowRate(input, snapshot))).netROE == 0.0
  {
    var snapshot' := snapshot.(borrowAPY := BreakEvenBorrowRate(input, snapshot));
    assert BreakEvenBorrowRate(input, snapshot') == BreakEvenBorrowRate(input, snapshot);
    NetRoeViaBreakEven(input, snapshot');
  }

  /** The break-even rate is the threshold: the position earns exactly when it borrows below it. */
  lemma BreakEvenSign(input: StrategyInput, snapshot: MarketSnapshot)
    requires Simulable(input, snapshot)
    ensures var r, be := SimulateStrategy(input, snapshot), BreakEvenBorrowRate(input, snapshot);
            && (r.netROE > 0.0 <==> snapshot.borrowAPY < be)
            && (r.netROE == 0.0 <==> snapshot.borrowAPY == be)
  {
    var r, be := SimulateStrategy(input, snapshot), BreakEvenBorrowRate(input, snapshot);
    NetRoeViaBreakEven(input, snapshot);
    var k, margin := r.leverage - 1.0, be - snapshot.borrowAPY;
    assert k > 0.0 && r.netROE == k * margin;
    ProductSign(k, margin);
  }

  /** Multiplying by a positive factor keeps the sign. */
  lemma ProductSign(k: real, x: real)
    requires k > 0.0
    ensures k * x > 0.0 <==> x > 0.0
    ensures k * x == 0.0 <==> x == 0.0
  {
    if x > 0.0 {
      assert k * x > 0.0;
    } else if x < 0.0 {
      assert k * x < 0.0;
    }
  }
}

=== FILE: storage.dfy ===
/**
 * Browser persistence of saved strategies and points models (lib/storage.ts).
 * `window.localStorage` is one slot under the key "looplab:snapshot:v1";
 * `JSON.stringify`/`JSON.parse` are not modelled as text: a stored value is
 * either a parsed `Document` or text that does not parse.
 */
module Storage {
  import opened Wrappers
  import opened Types
  import Upsert

  /** What `JSON.parse` yields for a stored text: an object whose two lists may be missing. */
  datatype Document = Document(strategies: Option<seq<StrategyInput>>, points: Option<seq<PointsModel>>)

  /** A text under the storage key: one that does not parse (the empty text included), or a document. */
  datatype Raw = Unparsable | Json(doc: Document)

  const EmptySnapshot: SavedSnapshot := SavedSnapshot([], [])

  /** The identifier of a saved strategy. */
  function StrategyId(s: StrategyInput): string { s.id }

  /** The identifier of a saved points model. */
  function PointsId(m: PointsModel): string { m.id }

  /** `JSON.stringify` of a snapshot, as the document it parses back to. */
  function Encode(snapshot: SavedSnapshot): Document
  {
    Document(Some(snapshot.strategies), Some(snapshot.points))
  }

  /** `{ strategies: parsed.strategies ?? [], points: parsed.points ?? [] }`. */
  function Defaulted(doc: Document): SavedSnapshot
  {
    SavedSnapshot(doc.strategies.GetOr([]), doc.points.GetOr([]))
  }

  /** What loadSnapshot returns for the given window presence and slot contents. */
  function Decode(hasWindow: bool, slot: Option<Raw>): SavedSnapshot
  {
    if !hasWindow then EmptySnapshot
    else match slot
      case None => EmptySnapshot
      case Some(Unparsable) => EmptySnapshot
      case Some(Json(doc)) => Defaulted(doc)
  }

  /** Every failure of loading (no window, nothing stored, unparsable text) reads as two empty lists. */
  lemma DecodeFailuresAreEmpty(hasWindow: bool, slot: Option<Raw>)
    requires !hasWindow || slot.None? || slot == Some(Unparsable)
    ensures Decode(hasWindow, slot) == SavedSnapshot([], [])
  {
  }

  /** A missing list in a stored document reads as empty; a present one is returned as stored. */
  lemma DecodeDefaultsMissingLists(doc: Document)
    ensures var s := Decode(true, Some(Json(doc)));
            && (doc.strategies.None? ==> s.strategies == [])
            && (doc.points.None? ==> s.points == [])
            && (doc.strategies.Some? ==> s.strategies == doc.strategies.value)
            && (doc.points.Some? ==> s.points == doc.points.value)
  {
  }

  /** Round trip: what is written is what is read back. */
  lemma DecodeEncode(snapshot: SavedSnapshot)
    ensures Decode(true, Some(Json(Encode(snapshot)))) == snapshot
  {
  }

  /** The slot the code reads and writes, and whether a browser window exists at all. */
  class BrowserStorage {
    const hasWindow: bool
    var slot: Option<Raw>

    constructor (hasWindow: bool, slot: Option<Raw>)
      ensures this.hasWindow == hasWindow && this.slot == slot
    {
      this.hasWindow := hasWindow;
      this.slot := slot;
    }

    /** The lists currently persisted, as a load would see them. */
    function Persisted(): SavedSnapshot
      reads this
    {
      Decode(hasWindow, slot)
    }

    /** loadSnapshot */
    method LoadSnapshot() returns (snapshot: SavedSnapshot)
      ensures snapshot == Decode(hasWindow, slot)
      ensures !hasWindow ==> snapshot == EmptySnapshot
    {
      if !hasWindow {
        return SavedSnapshot([], []);
      }
      var raw := slot;
      if raw.None? {
        return SavedSnapshot([], []);
      }
      match raw.value
      case Unparsable =>
        snapshot := SavedSnapshot([], []);
      case Json(parsed) =>
        snapshot := SavedSnapshot(parsed.strategies.GetOr([]), parsed.points.GetOr([]));
    }

    /** saveSnapshot: overwrite the slot; without a window, do nothing. */
    method SaveSnapshot(snapshot: SavedSnapshot)
      modifies this
      ensures slot == if hasWindow then Some(Json(Encode(snapshot))) else old(slot)
      ensures hasWindow ==> Persisted() == snapshot
    {
      if !hasWindow {
        return;
      }
      slot := Some(Json(Encode(snapshot)));
      DecodeEncode(snapshot);
    }

    /** saveStrategy: load, put the strategy first replacing any of the same id, save. */
    method SaveStrategy(strategy: StrategyInput)
      modifies this
      ensures var before := old(Persisted());
              slot == if hasWindow
                      then Some(Json(Encode(before.(strategies := Upsert.UpsertFront(strategy, before.strategies, StrategyId)))))
                      else old(slot)
      ensures hasWindow ==> Persisted().strategies == Upsert.UpsertFront(strategy, old(Persisted()).strategies, StrategyId)
      ensures Persisted().points == old(Persisted()).points
    {
      var snapshot := LoadSnapshot();
      var next := snapshot.(strategies := Upsert.UpsertFront(strategy, snapshot.strategies, StrategyId));
      SaveSnapshot(next);
    }

    /** savePoints: the same for a points model, leaving the strategies alone. */
    method SavePoints(model: PointsModel)
      modifies this
      ensures var before := old(Persisted());
              slot == if hasWindow
                      then Some(Json(Encode(before.(points := Upsert.UpsertFront(model, before.points, PointsId)))))
                      else old(slot)
      ensures hasWindow ==> Persisted().points == Upsert.UpsertFront(model, old(Persisted()).points, PointsId)
      ensures Persisted().strategies == old(Persisted()).strategies
    {
      var snapshot := LoadSnapshot();
      var next := snapshot.(points := Upsert.UpsertFront(model, snapshot.points, PointsId));
      SaveSnapshot(next);
    }

    /** exportSnapshot: the loaded lists, as the document the exported text holds. */
    method ExportSnapshot() returns (doc: Document)
      ensures Defaulted(doc) == Decode(hasWindow, slot)
      ensures doc.strategies.Some? && doc.points.Some?
    {
      var snapshot := LoadSnapshot();
      doc := Encode(snapshot);
    }

    /** importSnapshot: store a parsed text with its missing lists defaulted; ignore one that does not parse. */
    method ImportSnapshot(raw: Raw)
      modifies this
      ensures raw.Unparsable? ==> slot == old(slot)
      ensures raw.Json? ==> slot == if hasWindow then Some(Json(Encode(Defaulted(raw.doc)))) else old(slot)
      ensures raw.Json? && hasWindow ==> Persisted() == Defaulted(raw.doc)
    {
      match raw
      case Unparsable =>
      case Json(parsed) =>
        SaveSnapshot(SavedSnapshot(parsed.strategies.GetOr([]), parsed.points.GetOr([])));
    }
  }
}

=== FILE: store.dfy ===
/**
 * The application store (lib/store.ts): the in-memory lists of saved
 * strategies and points models, each update written through to storage.
 */
module Store {
  import opened Types
  import opened Wrappers
  import Upsert
  import Storage

  class LoopLabStore {
    var strategies: seq<StrategyInput>
    var points: seq<PointsModel>
    /** The persistence the store loads from and writes through to. */
    const storage: Storage.BrowserStorage

    /** The in-memory lists as one snapshot. */
    function Current(): SavedSnapshot
      reads this
    {
      SavedSnapshot(strategies, points)
    }

    /** The store starts empty, whatever is persisted. */
    constructor (storage: Storage.BrowserStorage)
      ensures strategies == [] && points == []
      ensures this.storage == storage
    {
      strategies := [];
      points := [];
      this.storage := storage;
    }

    /** hydrate: replace both lists with what storage holds. */
    method Hydrate()
      modifies this
      ensures Current() == storage.Persisted()
    {
      var snapshot := storage.LoadSnapshot();
      strategies := snapshot.strategies;
      points := snapshot.points;
    }

    /** saveStrategy: upsert to the front, keep the points, and persist the new pair of lists. */
    method SaveStrategy(strategy: StrategyInput)
      modifies this, storage
      ensures strategies == Upsert.UpsertFront(strategy, old(strategies), Storage.StrategyId)
      ensures points == old(points)
      ensures storage.slot == if storage.hasWindow then Some(Storage.Json(Storage.Encode(Current())))
                              else old(storage.slot)
      ensures storage.hasWindow ==> storage.Persisted() == Current()
      ensures Upsert.UniqueKeys(old(strategies), Storage.StrategyId) ==> Upsert.UniqueKeys(strategies, Storage.StrategyId)
    {
      if Upsert.UniqueKeys(strategies, Storage.StrategyId) {
        Upsert.UpsertKeepsUnique(strategy, strategies, Storage.StrategyId);
      }
      var next := Upsert.UpsertFront(strategy, strategies, Storage.StrategyId);
      storage.SaveSnapshot(SavedSnapshot(next, points));
      strategies := next;
    }

    /** savePoints: the same for a points model, keeping the strategies. */
    method SavePoints(model: PointsModel)
      modifies this, storage
      ensures points == Upsert.UpsertFront(model, old(points), Storage.PointsId)
      ensures strategies == old(strategies)
      ensures storage.slot == if storage.hasWindow then Some(Storage.Json(Storage.Encode(Current())))
                              else old(storage.slot)
      ensures storage.hasWindow ==> storage.Persisted() == Current()
      ensures Upsert.UniqueKeys(old(points), Storage.PointsId) ==> Upsert.UniqueKeys(points, Storage.PointsId)
    {
      if Upsert.UniqueKeys(points, Storage.PointsId) {
        Upsert.UpsertKeepsUnique(model, points, Storage.PointsId);
      }
      var next := Upsert.UpsertFront(model, points, Storage.PointsId);
      storage.SaveSnapshot(SavedSnapshot(strategies, next));
      points := next;
    }
  }
}

=== FILE: types.dfy ===
/**
 * The records shared by the engine, the market catalogue and the saved-strategy
 * store (lib/types.ts). Every number of the application is a `real` here.
 */
module Types {
  import opened Wrappers

  datatype Network = Ethereum | Arbitrum | Optimism | Base

  datatype ProviderName = AaveV3 | Morpho | Custom

  /** The three risk targets the strategy form accepts ("survive an X% drawdown"). */
  type RiskTarget = t: int | t == 15 || t == 25 || t == 35 witness 25

  datatype Mode = Simple | Pro

  datatype Market = Market(id: string, name: string, network: Network, provider: ProviderName)

  datatype MarketSnapshot = MarketSnapshot(
    marketId: string,
    supplyAPY: real,
    borrowAPY: real,
    incentivesSupply: real,
    incentivesBorrow: real,
    ltv: real,
    liquidationThreshold: real,
    liquidationBonus: real,
    availableLiquidity: real,
    utilization: real,
    oracleType: string,
    notes: seq<string>,
    riskFlags: seq<string>)

  datatype StrategyInput = StrategyInput(
    id: string,
    name: string,
    network: Network,
    provider: ProviderName,
    marketId: string,
    collateralAsset: string,
    debtAsset: string,
    initialCapital: real,
    riskTarget: RiskTarget,
    mode: Mode,
    manualLtv: Option<real>,
    minHealthFactor: Option<real>,
    borrowSpike: Option<real>,
    slippage: Option<real>,
    liquidationBonus: Option<real>,
    depegHaircut: Option<real>,
    loopStopThreshold: Option<real>)

  datatype StrategyResult = StrategyResult(
    netROE: real,
    healthFactor: real,
    liquidationPrice: real,
    distanceToLiq: real,
    leverage: real,
    supplyAPY: real,
    borrowAPY: real,
    incentivesNet: real,
    fees: real,
    assumptions: map<string, real>)

  datatype StressResult = StressResult(caption: string, healthFactor: real, netROE: real)

  datatype Fdv = Fdv(conservative: real, base: real, bull: real)

  datatype PointsRange = PointsRange(minPoints: real, maxPoints: real)

  datatype ProSettings = ProSettings(
    totalSupply: Option<real>,
    recipients: Option<real>,
    capPerUser: Option<real>,
    sybilDiscount: Option<real>,
    tgeUnlock: Option<real>,
    vestingMonths: Option<real>)

  datatype PointsModel = PointsModel(
    id: string,
    project: string,
    pointsPerDay: real,
    days: real,
    multiplier: real,
    airdropPercent: real,
    fdv: Fdv,
    range: PointsRange,
    pro: ProSettings)

  /** What the browser keeps: every saved strategy and points model. */
  datatype SavedSnapshot = SavedSnapshot(strategies: seq<StrategyInput>, points: seq<PointsModel>)
}

=== FILE: upsert.dfy ===
/**
 * The list rebuilding shared by the store and the storage helpers
 * (lib/store.ts, lib/storage.ts): `[item, ...list.filter(i => i.id !== item.id)]`,
 * an "upsert to the front" keyed by identifier. `key` plays the role of `.id`.
 */
module Upsert {

  /** `list.filter(i => key(i) !== k)`. */
  function RemoveKey<T(!new), K(==)>(xs: seq<T>, k: K, key: T -> K): (r: seq<T>)
    ensures |r| <= |xs|
    ensures forall x :: x in r <==> x in xs && key(x) != k
  {
    if xs == [] then []
    else
      var rest := RemoveKey(xs[1..], k, key);
      if key(xs[0]) != k then [xs[0]] + rest else rest
  }

  /** `[x, ...xs.filter(i => key(i) !== key(x))]`. */
  function UpsertFront<T(!new), K(==)>(x: T, xs: seq<T>, key: T -> K): (r: seq<T>)
    ensures |r| >= 1 && r[0] == x
    ensures forall i :: 0 < i < |r| ==> key(r[i]) != key(x)
    ensures forall y :: y in r <==> y == x || (y in xs && key(y) != key(x))
  {
    [x] + RemoveKey(xs, key(x), key)
  }

  predicate HasKey<T(!new), K(==)>(xs: seq<T>, k: K, key: T -> K)
  {
    exists i :: 0 <= i < |xs| && key(xs[i]) == k
  }

  /** No two entries share an identifier. */
  predicate UniqueKeys<T(!new), K(==)>(xs: seq<T>, key: T -> K)
  {
    forall i, j :: 0 <= i < j < |xs| ==> key(xs[i]) != key(xs[j])
  }

  /** Filtering is a homomorphism over concatenation: the survivors keep their relative order. */
  lemma {:induction false} RemoveKeyAppend<T(!new), K>(a: seq<T>, b: seq<T>, k: K, key: T -> K)
    ensures RemoveKey(a + b, k, key) == RemoveKey(a, k, key) + RemoveKey(b, k, key)
  {
    if a == [] {
      assert a + b == b;
    } else {
      assert (a + b)[1..] == a[1..] + b;
      RemoveKeyAppend(a[1..], b, k, key);
    }
  }

  /** Removing an identifier nobody has changes nothing. */
  lemma {:induction false} RemoveKeyAbsent<T(!new), K>(xs: seq<T>, k: K, key: T -> K)
    requires !HasKey(xs, k, key)
    ensures RemoveKey(xs, k, key) == xs
  {
    if xs != [] {
      assert key(xs[0]) != k;
      RemoveKeyAbsent(xs[1..], k, key);
    }
  }

  /** Filtering twice is filtering once. */
  lemma RemoveKeyIdempotent<T(!new), K>(xs: seq<T>, k: K, key: T -> K)
    ensures RemoveKey(RemoveKey(xs, k, key), k, key) == RemoveKey(xs, k, key)
  {
    var r := RemoveKey(xs, k, key);
    RemoveKeyAbsent(r, k, key);
  }

  lemma HasKeyCons<T(!new), K>(xs: seq<T>, k: K, key: T -> K)
    requires xs != []
    ensures HasKey(xs, k, key) <==> key(xs[0]) == k || HasKey(xs[1..], k, key)
  {
    if HasKey(xs[1..], k, key) {
      var i :| 0 <= i < |xs[1..]| && key(xs[1..][i]) == k;
      assert key(xs[i + 1]) == k;
    }
  }

  lemma UniqueTail<T(!new), K>(xs: seq<T>, key: T -> K)
    requires xs != [] && UniqueKeys(xs, key)
    ensures UniqueKeys(xs[1..], key)
    ensures !HasKey(xs[1..], key(xs[0]), key)
  {
    var tail := xs[1..];
    forall i, j | 0 <= i < j < |tail| ensures key(tail[i]) != key(tail[j]) {
      assert tail[i] == xs[i + 1] && tail[j] == xs[j + 1];
    }
    forall i | 0 <= i < |tail| ensures key(tail[i]) != key(xs[0]) {
      assert tail[i] == xs[i + 1];
    }
  }

  /** Filtering a list with unique identifiers drops exactly the one entry that matches, if any. */
  lemma {:induction false} RemoveKeyLength<T(!new), K>(xs: seq<T>, k: K, key: T -> K)
    requires UniqueKeys(xs, key)
    ensures UniqueKeys(RemoveKey(xs, k, key), key)
    ensures |RemoveKey(xs, k, key)| == if HasKey(xs, k, key) then |xs| - 1 else |xs|
  {
    if xs != [] {
      var tail := xs[1..];
      UniqueTail(xs, key);
      HasKeyCons(xs, k, key);
      RemoveKeyLength(tail, k, key);
      var rest := RemoveKey(tail, k, key);
      if key(xs[0]) != k {
        var r := [xs[0]] + rest;
        forall i, j | 0 <= i < j < |r| ensures key(r[i]) != key(r[j]) {
          if i == 0 {
            assert r[j] in rest;
            var m :| 0 <= m < |tail| && tail[m] == r[j];
          } else {
            assert r[i] == rest[i - 1] && r[j] == rest[j - 1];
          }
        }
      }
    }
  }

  /** After an upsert the list has unique identifiers if it had them before. */
  lemma UpsertKeepsUnique<T(!new), K>(x: T, xs: seq<T>, key: T -> K)
    requires UniqueKeys(xs, key)
    ensures UniqueKeys(UpsertFront(x, xs, key), key)
  {
    RemoveKeyLength(xs, key(x), key);
    var rest := RemoveKey(xs, key(x), key);
    var r := UpsertFront(x, xs, key);
    forall i, j | 0 <= i < j < |r| ensures key(r[i]) != key(r[j]) {
      if i > 0 {
        assert r[i] == rest[i - 1] && r[j] == rest[j - 1];
      }
    }
  }

  /** The list grows by one exactly when the identifier is new. */
  lemma UpsertLength<T(!new), K>(x: T, xs: seq<T>, key: T -> K)
    requires UniqueKeys(xs, key)
    ensures |UpsertFront(x, xs, key)| == if HasKey(xs, key(x), key) then |xs| else |xs| + 1
  {
    RemoveKeyLength(xs, key(x), key);
  }

  /** Saving the same item twice is saving it once. */
  lemma UpsertIdempotent<T(!new), K>(x: T, xs: seq<T>, key: T -> K)
    ensures UpsertFront(x, UpsertFront(x, xs, key), key) == UpsertFront(x, xs, key)
  {
    var rest := RemoveKey(xs, key(x), key);
    RemoveKeyAppend([x], rest, key(x), key);
    assert RemoveKey([x], key(x), key) == [];
    RemoveKeyIdempotent(xs, key(x), key);
  }

  /** Apart from the saved item, the list is the old one with that identifier removed, order kept. */
  lemma UpsertKeepsOthers<T(!new), K>(x: T, xs: seq<T>, key: T -> K)
    ensures RemoveKey(UpsertFront(x, xs, key), key(x), key) == RemoveKey(xs, key(x), key)
  {
    var rest := RemoveKey(xs, key(x), key);
    RemoveKeyAppend([x], rest, key(x), key);
    assert RemoveKey([x], key(x), key) == [];
    RemoveKeyIdempotent(xs, key(x), key);
  }
}

=== FILE: wrappers.dfy ===
/** Optional values: TypeScript's `undefined` and `?:` fields. */
module Wrappers {

  datatype Option<+T> = None | Some(value: T) {

    /** The `??` operator: the value when present, otherwise the default. */
    function GetOr(default: T): (r: T)
      ensures Some? ==> r == value
      ensures None? ==> r == default
    {
      match this
      case Some(v) => v
      case None => default
    }
  }
}
